=== FILE: README.md ===
# Billogram v2 API client: a Dafny model of its decision logic

The Billogram v2 Python client turns method calls into HTTP requests and
turns HTTP responses into returned values or typed exceptions. This project
models the logic the client runs locally, as pure functions over immutable
values:

- the response classifier `BillogramAPI._check_api_response`;
- the exception hierarchy, and how `BillogramAPIError.__init__` splits its
  keyword data;
- the remote-object calls, with their requests and the replacement of the
  local snapshot;
- the `Query` state: filter, order and page size, the cached count, and
  `total_pages`;
- the billogram events: their local argument checks and payloads,
  `perform_event`, `create_and_send` with its compensating delete,
  `create_and_sell`, and `filter_state_any`.

The model does no I/O. Each HTTP exchange appears as an abstract `Response`
passed in as a parameter: the status code, the content-type header (if
any), what `resp.json()` decodes to (`None` when it fails), and the raw
bytes. A call returns the requests it would send, in order, together with
its outcome.

Modules, leaf first:

| file | module | models |
|---|---|---|
| wrappers.dfy | `Wrappers` | `Option` |
| json.dfy | `Json` | decoded JSON as Python sees it: `null` is `None`, truthiness, `dict.get` |
| errors.dfy | `Errors` | error classes, `IsA` (= `issubclass`), `ApiError`, `MakeError`, `Failure`, `Result` |
| classifier.dfy | `Classifier` | `_check_api_response` as written and corrected |
| classifier_facts.dfy | `ClassifierFacts` | branch-by-branch lemmas about the classifier |
| objects.dfy | `Objects` | collections, remote objects, get/create/refresh/update/delete |
| queries.dfy | `Queries` | `Query` and its setters, `count`, `total_pages`, `get_page`, filter helpers |
| billograms.dfy | `Billogram` | event checks, `perform_event`, `create_and_send`, `create_and_sell`, `filter_state_any` |

The events that take no argument are constants in `Billogram`:
`credit_full`, `credit_remaining`, `send_to_collector` (`collect`) and
`send_to_factoring` (`sell`). `send_message` is `MessageEvent`. All of them
go through `Billogram.PerformEvent` like the checked events do.

A call can fail in three ways (`Errors.Failure`):

- `Raised(ApiError)`: one of the library's API error classes.
- `Escaped(Fault)`: a Python exception that is not an API error. Examples:
  the `KeyError` for a missing content-type header, or the `ValueError`
  from an undecodable body.
- `Usage(reason)`: a failed local `assert`.

Three behaviours of the code that the model keeps as written:

- A 404 response whose status is `NOT_AVAILABLE_YET` raises
  `ObjectNotFoundError` (with the message "Object not available yet"). It
  does not raise the `ObjectNotAvailableYetError` subclass
  (billogram_api.py:269-273), although the subclass's docstring
  (billogram_api.py:130-132) describes exactly that case.
- `resp.ok` (billogram_api.py:201) is modelled as the HTTP library defines
  it: false exactly for codes 400 to 599.
- The expected content type is settled (billogram_api.py:201-203) before
  the 5xx check (billogram_api.py:205).

## Model

| member | source | states |
|---|---|---|
| `Errors.Parent` | billogram_api.py:48-133 | only `BillogramAPIError` has no base class; every other class sits one level below its base |
| `Errors.EveryKindIsApiError` | billogram_api.py:48-133 | `except BillogramAPIError` catches every error class of the library |
| `Errors.IsATransitive` | billogram_api.py:48-133 | catching a base class also catches the subclasses of its subclasses |
| `Errors.IsADeepens` | billogram_api.py:48-133 | a proper base class is strictly closer to the root than its subclass |
| `Errors.IsAAntisymmetric` | billogram_api.py:48-133 | two classes that are subclasses of each other are the same class |
| `Errors.IsAMatchesLineage` | billogram_api.py:48-133 | the recursive subclass relation agrees with an explicit table of each class's bases, e.g. not-available-yet is a not-found and a request-data error |
| `Errors.MakeError` | billogram_api.py:50-62 | `field` and `field_path` are the keyword entries, or `None` when absent; `extra_data` holds exactly the other keywords, and is `None` iff nothing else was given |
| `Errors.MakeErrorKeepsKeywords` | billogram_api.py:50-62 | no keyword data is lost: the keywords can be read back from the error unless `field`/`field_path` was passed as an explicit `None` |
| `Classifier.Expected` | billogram_api.py:200-203 | a failed response, or a call that names no type, is held to `application/json`; otherwise the named type is expected |
| `Classifier.StatusKind` | billogram_api.py:284-292 | every class the status table or its default can name is a request-form or request-data error; the table never yields missing-field or not-found |
| `Classifier.BuildError` | billogram_api.py:282-292 | an error is built iff the envelope's `data` is a dict with `message` and without `self`; `message` becomes the message and the rest become the keywords |
| `Classifier.ServerErrorAsWritten` | billogram_api.py:205-219 | the 5xx branch as written: whatever it raises is a service malfunction, and it escapes with a non-API exception exactly when the content-type header is missing, or when JSON is expected and received but the body is not a dict holding a dict under `data` |
| `Classifier.ServerError` | billogram_api.py:205-219 | every 5xx response is a service malfunction; it agrees with the code wherever the code raises |
| `Classifier.Mismatch` | billogram_api.py:221-232 | with an unexpected content type, the result is not-available-yet iff the content type is JSON and the body's status is `NOT_AVAILABLE_YET`; otherwise it is a service malfunction, except that a JSON answer whose body does not decode to a dict escapes with a non-API exception (exactly then) |
| `Classifier.Forbidden` | billogram_api.py:249-267 | every 403 error is a permission-denied error, or else the request-form error used for missing authentication |
| `Classifier.ClassifyEnvelope` | billogram_api.py:234-292 | a JSON envelope is returned only when unchanged, with status `OK` and a `data` entry, and not under 403/404/405; no other outcome is a bare base-class or missing-field error |
| `Classifier.ClassifyRest` | billogram_api.py:221-292 | raw content is returned only for the expected non-JSON type; an envelope only for a JSON body whose status is OK |
| `Classifier.ClassifyAsWritten` | billogram_api.py:199-292 | the whole classifier as written: a 5xx status never returns and raises only malfunctions, escaping on an expected JSON answer without a dict under `data`; raw content only on success with the non-JSON type asked for; an envelope only when unchanged and OK; never a local assertion failure |
| `Classifier.Classify` | billogram_api.py:199-292 | 5xx is always a malfunction; raw content only on success with the non-JSON type asked for; an envelope only when unchanged and OK; never a local assertion failure; same result as the code wherever the code does not crash |
| `ClassifierFacts.UnexpectedContentType` | billogram_api.py:221-232 | outside 5xx, a content type other than the expected one yields not-available-yet exactly for a JSON body reporting `NOT_AVAILABLE_YET`, and a malfunction for any non-JSON type and for a JSON dict body reporting any other status |
| `ClassifierFacts.RawIff` | billogram_api.py:234-247 | raw content comes back iff the response is ok, not 5xx, and carries the non-JSON type the caller asked for; no status is inspected |
| `ClassifierFacts.MalformedEnvelope` | billogram_api.py:234-244 | a JSON envelope with a falsy status or without `data` is a service malfunction |
| `ClassifierFacts.Forbidden403` | billogram_api.py:249-267 | 403 with `PERMISSION_DENIED` is not-authorized, `INVALID_AUTH` invalid-authentication, `MISSING_AUTH` request-form; any other status is plain permission-denied carrying the status |
| `ClassifierFacts.NotFoundAndBadMethod` | billogram_api.py:269-277 | 404 is always plain not-found, `NOT_AVAILABLE_YET` included; 405 is request-form |
| `ClassifierFacts.EnvelopeIff` | billogram_api.py:279-280 | the envelope is returned, unchanged, iff it is well-formed JSON reporting `OK` under a code that no earlier branch claims |
| `ClassifierFacts.StatusTable` | billogram_api.py:282-292 | any other hashable status goes through the table, and the error is built from the envelope's `data`; each of the seven table statuses raises its own class (both query-parameter statuses a request-form error, `INVALID_PARAMETER` invalid-field-value, and so on), and any status outside the table raises a plain request-data error |
| `ClassifierFacts.ServerErrorWithoutData` | billogram_api.py:205-215 | a 500 JSON body without a `data` dict crashes the code as written, while the corrected classifier raises a malfunction |
| `ClassifierFacts.InvalidAuthScenario` | billogram_api.py:255-259 | 403 with `INVALID_AUTH` raises invalid-authentication, which `except PermissionDeniedError` also catches |
| `Objects.EnvelopeData` | billogram_api.py:401-402 | `resp['data']` of a classified envelope: an error exactly when classification raised, otherwise the body's `data` entry |
| `Objects.ObjectId` | billogram_api.py:618-621 | the id is the snapshot's identifying field; a snapshot without it fails |
| `Objects.ReplaceSnapshot` | billogram_api.py:393-403 | on success the snapshot becomes the response's data and the collection is kept; on error the classifier's error is raised |
| `Objects.Fetch` | billogram_api.py:618-638 | an id of `None` fails with a `TypeError` before any request; any other id sends one GET of the member URL, and the object holds the response's data |
| `Objects.Create` | billogram_api.py:640-643 | one POST of the data to the collection URL; the new object holds the answer, not what was sent |
| `Objects.Refresh` | billogram_api.py:393-397 | one GET of the object's own URL, then snapshot replacement |
| `Objects.Update` | billogram_api.py:399-403 | one PUT of the data to the object's URL; the answer replaces the snapshot |
| `Objects.Delete` | billogram_api.py:435-438 | one DELETE of the object's URL; it succeeds iff the response classifies as success |
| `Objects.ReplacementForgetsOldSnapshot` | billogram_api.py:399-403 | after a successful refresh, update or event, nothing of the old snapshot remains: objects with different snapshots end up equal |
| `Queries.NewQuery` | billogram_api.py:453-458 | a new query has no filter, no order, 100 per page and no cached count, and is valid |
| `Queries.SetFilter` | billogram_api.py:509-527 | the current filter is accepted as a no-op that keeps the count; otherwise a value is accepted iff it is empty or names type, field and value with a known type; an accepted change drops the cached count and touches nothing else; validity is kept |
| `Queries.SetOrder` | billogram_api.py:533-541 | accepted iff empty, or naming a field and the direction asc/desc; the cached count is kept |
| `Queries.SetPageSize` | billogram_api.py:497-502 | accepted iff at least 1; nothing else changes |
| `Queries.QueryArgs` | billogram_api.py:460-474 | the page request's parameters are page, page_size, the filter and the order, with order entries overriding filter entries and both overriding the page entries |
| `Queries.Count` | billogram_api.py:476-484 | a cached count is returned with no request; otherwise one request for a one-object first page, whose total count is cached; a failed request leaves the query as it was |
| `Queries.CeilDiv` | billogram_api.py:486-490 | `(n + d - 1) // d` covers n with pages of d and one page fewer does not |
| `Queries.CeilDivIsLeast` | billogram_api.py:486-490 | no smaller number of pages covers the objects |
| `Queries.TotalPages` | billogram_api.py:486-490 | `total_pages` is the least p with p·page_size ≥ count, after the same remote reads as `count` |
| `Queries.GetPage` | billogram_api.py:580-589 | one GET at the current page size; each returned item becomes an object of the collection, in order; the reported total count is cached |
| `Queries.MakeFilter` | billogram_api.py:543-553 | a `None` part clears the filter; otherwise the three-part filter is set, and this fails only for an unknown type; order, page size and collection are kept, a changed filter drops the cached count, and an unchanged one leaves the query as it was; a valid query stays valid |
| `Queries.RemoveFilter` | billogram_api.py:555-558 | the filter becomes empty; the count is dropped only if there was a filter; order, page size and collection are kept, a changed filter drops the cached count, and an unchanged one leaves the query as it was; a valid query stays valid |
| `Queries.FilterField` | billogram_api.py:560-562 | sets an exact-match filter on the field, or clears the filter when the field or value is `None`; never fails; order, page size and collection are kept, a changed filter drops the cached count, and an unchanged one leaves the query as it was; a valid query stays valid |
| `Queries.FilterPrefix` | billogram_api.py:564-566 | sets a prefix filter on the field, or clears the filter when the field or value is `None`; never fails; order, page size and collection are kept, a changed filter drops the cached count, and an unchanged one leaves the query as it was; a valid query stays valid |
| `Queries.FilterSearch` | billogram_api.py:568-570 | sets a substring filter on the field, or clears the filter when the field or value is `None`; never fails; order, page size and collection are kept, a changed filter drops the cached count, and an unchanged one leaves the query as it was; a valid query stays valid |
| `Queries.FilterSpecial` | billogram_api.py:572-574 | sets a special-query filter, or clears the filter when the field or value is `None`; never fails; order, page size and collection are kept, a changed filter drops the cached count, and an unchanged one leaves the query as it was; a valid query stays valid |
| `Queries.Search` | billogram_api.py:576-578 | sets the special query `search`, or clears the filter for `None` terms; never fails; order, page size and collection are kept, a changed filter drops the cached count, and an unchanged one leaves the query as it was; a valid query stays valid |
| `Queries.CountIsCached` | billogram_api.py:476-484 | a second read of `count` sends nothing and gives the first answer, whatever the service would now say |
| `Queries.FilterChangeRefetchesCount` | billogram_api.py:509-527 | after an actual filter change, the next `count` asks the service again |
| `Queries.SameFilterKeepsCount` | billogram_api.py:511-512 | assigning the current filter keeps a cached count |
| `Queries.OrderAndSizeKeepCount` | billogram_api.py:497-541 | changing the order or the page size never causes a new count request |
| `Queries.ThirtySevenOnOnePage` | billogram_api.py:486-490 | 37 objects at the default page size fit on one page |
| `Billogram.PaymentEvent` | billogram_api.py:664-670 | a payment is accepted iff the amount is positive, and is posted as event `payment` with the amount |
| `Billogram.CreditAmountEvent` | billogram_api.py:672-684 | a credit of an amount is accepted iff the amount is positive, with mode `amount` |
| `Billogram.OptionalMethodEvent` | billogram_api.py:721-760 | reminders and resends accept no method (nothing sent) or exactly Email/Letter (sent as `method`) |
| `Billogram.SendEvent` | billogram_api.py:735-746 | sending is accepted iff the method is Email, Letter or Email+Letter |
| `Billogram.PerformEvent` | billogram_api.py:656-662 | one POST to `<object>/command/<event>` with the payload; the answer replaces the snapshot |
| `Billogram.Perform` | billogram_api.py:664-760 | a rejected argument fails before any request; an accepted one performs the event |
| `Billogram.LocalChecksSendNothing` | billogram_api.py:664-760 | a non-positive amount or an unknown method sends no request at all |
| `Billogram.CreateAndSend` | billogram_api.py:843-861 | an unknown method sends nothing; otherwise the create is the first request, and a failed create ends the call |
| `Billogram.CreateAndSendSuccess` | billogram_api.py:855-861 | when the create succeeds with an id and the send succeeds, the call succeeds: exactly the create and the send were posted, nothing is deleted, and the result holds the send response's data, not the create's |
| `Billogram.CreateAndSendCompensates` | billogram_api.py:856-860 | if the send fails after a create, exactly three requests go out: the create, the send and a delete of the new billogram; the send's error is raised again unless the delete fails, whose error then wins |
| `Billogram.CreateAndSendWithoutId` | billogram_api.py:856-860 | if the created data has no id, neither the send nor the delete can be addressed: only the create was posted, and the billogram stays |
| `Billogram.CreateAndSell` | billogram_api.py:863-870 | exactly one POST to the `billogram` collection, whose data has `_event` set to `sell` and every other entry unchanged; the result is that create's |
| `Billogram.SplitJoin` | billogram_api.py:824 | splitting the comma-joined states on commas gives them back when there is at least one and none contains a comma |
| `Billogram.JoinSplit` | billogram_api.py:824 | joining the comma-split pieces of any string gives the string back |
| `Billogram.FilterStateAny` | billogram_api.py:810-824 | on a billogram query only: accepted iff every state is a string (a single list argument stands for its items); sets an exact filter on `state` with the states joined by commas; otherwise the query changes as under the `filter` setter: order, page size and collection kept, a changed filter drops the cached count |
| `Billogram.StateFilterRoundTrip` | billogram_api.py:814-824 | splitting the resulting filter value on commas gives exactly the requested states back |

## Left out

- The HTTP transport (`get`/`post`/`put`/`delete`, billogram_api.py:294-346) is left out. That covers basic authentication, the user agent, the base URL and JSON serialisation. Responses are parameters, and requests are recorded as `Request` values.
- The PDF calls (`get_invoice_pdf`, `get_attachment_pdf`, `attach_pdf`) are left out because they rely on base64, file reading and `os.path`.
- `SingletonObject` (settings, logotype) and the lazy `data` property are left out. Objects are modelled as collection members whose snapshot is already present. With a `null` snapshot, the library's own URL lookup would re-enter `refresh` without end. The model reports that case as the `MissingObjectId` fault.
- The connection's memoized sub-resources `items`, `customers`, `billogram` and `reports` appear only as the `Collection` constants. Its `settings` and `logotype` sub-resources are `SingletonObject`s and are not modelled (see the line above).
- `iter_all` is left out: its generator and its `copy.copy` snapshot are Python iteration and aliasing mechanics.
- The `BillogramExceptions` namespace, `__repr__` and the Python 2/3 shims are left out.
- Error message texts built with `str.format` are kept as structured `Message` values rather than formatted strings.
- `assert` statements vanish under `python -O`. The model assumes they run.
- Python's cross-type equality (`True == 1`) is not modelled. JSON values compare structurally.
- `int(...)` conversions in the page-size setter and `get_page` are left out. The model takes integers, and amounts are reals.
- `Queries.Count`, `Queries.GetPage`: the service's page answer is an oracle. A response without `meta.total_count` is not modelled.
- `Billogram.FilterStateAny`: it takes a sequence. The unspecified iteration order of a `set`/`frozenset` argument is not modelled.
- `Billogram.CreateAndSell`: the mutation of the caller's dict is not modelled.
- `Billogram.CreateAndSend`: when the delete also fails, only the delete's error is kept. Python's chaining of the original error as `__context__` is not modelled.
- `Objects.EnvelopeData`, `Objects.Delete`: they classify with the corrected `Classifier.Classify`, not `Classifier.ClassifyAsWritten`. So for a 5xx JSON answer without a dict under `data`, every object-level call (`Objects.Fetch`, `Create`, `Refresh`, `Update`, `Delete`, `Billogram.PerformEvent`, `CreateAndSend`) raises a service malfunction where the code escapes with an `AttributeError` (see "## Findings"). Wherever the code raises or returns, the two classifiers agree (`Classifier.Classify`'s last clause).
- examples.py is left out because it is interactive demo code. setup.py is left out because it is packaging metadata.

## Findings

| source | as written | input that shows it | evidently intended | confidence | as-written member | corrected member |
|---|---|---|---|---|---|---|
| billogram_api.py:205-215 | under a 5xx status with a JSON content type, the message is read with `data.get('data').get('message')` | status 500, content type `application/json`, body `{"status": "ERROR"}`: `data.get('data')` is `None`, so `.get` raises `AttributeError` instead of `ServiceMalfunctioningError`. A body that does not decode, or a missing content-type header, also escapes as a non-API exception | every 5xx response raises `ServiceMalfunctioningError`, quoting the server's status and message when the body has them | medium; not executed | `Classifier.ServerErrorAsWritten` (shown by `ClassifierFacts.ServerErrorWithoutData`) | `Classifier.ServerError` (used by `Classifier.Classify`) |

=== FILE: billograms.dfy ===
/** Billogram objects: the state-transition events posted to them, the local
    argument checks made before any request, the combined create-and-send
    with its compensating delete, and the state filter of billogram queries. */
module Billogram {

  import opened Wrappers
  import opened Json
  import opened Errors
  import opened Classifier
  import opened Objects
  import opened Queries

  /** A named event and its JSON payload (`JNull` when none is sent). */
  datatype Event = Event(name: string, payload: Json)

  const SendMethods: set<Json> := {JStr("Email"), JStr("Letter"), JStr("Email+Letter")}
  const ReminderMethods: set<Json> := {JStr("Email"), JStr("Letter")}

  /** `create_payment`: a manual payment of a positive amount. */
  function PaymentEvent(amount: real): (r: Result<Event>)
    ensures r.Ok? <==> amount > 0.0
    ensures r.Ok? ==> r.value.name == "payment" && r.value.payload == JObj(map["amount" := JNum(amount)])
    ensures r.Err? ==> r.failure == Usage(NonPositiveAmount)
  {
    if amount > 0.0 then Ok(Event("payment", JObj(map["amount" := JNum(amount)])))
    else Err(Usage(NonPositiveAmount))
  }

  /** `credit_amount`: credit a positive amount. */
  function CreditAmountEvent(amount: real): (r: Result<Event>)
    ensures r.Ok? <==> amount > 0.0
    ensures r.Ok? ==> r.value.name == "credit"
                      && r.value.payload == JObj(map["mode" := JStr("amount"), "amount" := JNum(amount)])
    ensures r.Err? ==> r.failure == Usage(NonPositiveAmount)
  {
    if amount > 0.0 then Ok(Event("credit", JObj(map["mode" := JStr("amount"), "amount" := JNum(amount)])))
    else Err(Usage(NonPositiveAmount))
  }

  /** The events whose convenience methods take no argument to check. */
  const CreditFullEvent: Event := Event("credit", JObj(map["mode" := JStr("full")]))
  const CreditRemainingEvent: Event := Event("credit", JObj(map["mode" := JStr("remaining")]))
  const CollectEvent: Event := Event("collect", JNull)
  const SellEvent: Event := Event("sell", JNull)

  function MessageEvent(message: Json): Event {
    Event("message", JObj(map["message" := message]))
  }

  /** `send_reminder` and `resend`: a medium, if one is given, must be Email or
      Letter and is sent; with no medium (or an empty one) none is sent. */
  function OptionalMethodEvent(name: string, medium: Json): (r: Result<Event>)
    ensures r.Ok? <==> !Truthy(medium) || medium in ReminderMethods
    ensures r.Ok? ==> r.value.name == name
    ensures r.Ok? && Truthy(medium) ==> r.value.payload == JObj(map["method" := medium])
    ensures r.Ok? && !Truthy(medium) ==> r.value.payload == JNull
    ensures r.Err? ==> r.failure == Usage(UnknownMethod)
  {
    if Truthy(medium) then
      if medium in ReminderMethods then Ok(Event(name, JObj(map["method" := medium])))
      else Err(Usage(UnknownMethod))
    else Ok(Event(name, JNull))
  }

  function RemindEvent(medium: Json): Result<Event> {
    OptionalMethodEvent("remind", medium)
  }

  function ResendEvent(medium: Json): Result<Event> {
    OptionalMethodEvent("resend", medium)
  }

  /** `send`: the medium is required and may also be Email+Letter. */
  function SendEvent(medium: Json): (r: Result<Event>)
    ensures r.Ok? <==> medium in SendMethods
    ensures r.Ok? ==> r.value == Event("send", JObj(map["method" := medium]))
    ensures r.Err? ==> r.failure == Usage(UnknownMethod)
  {
    if medium in SendMethods then Ok(Event("send", JObj(map["method" := medium])))
    else Err(Usage(UnknownMethod))
  }

  /** `perform_event`: post the event to the object's command URL and take the
      service's answer as the object's new snapshot. */
  function PerformEvent(obj: RemoteObject, ev: Event, resp: Response): (call: Call<RemoteObject>)
    ensures ObjectId(obj).Err? ==> call == Call([], Err(Escaped(MissingObjectId)))
    ensures ObjectId(obj).Ok? ==>
              call.requests == [Request(POST, CommandPath(obj.collection.urlName, ObjectId(obj).value, ev.name), ev.payload)]
    ensures ObjectId(obj).Ok? ==> call.result == ReplaceSnapshot(obj, resp)
  {
    var id := ObjectId(obj);
    if id.Err? then Call([], Err(id.failure))
    else Call([Request(POST, CommandPath(obj.collection.urlName, id.value, ev.name), ev.payload)],
              ReplaceSnapshot(obj, resp))
  }

  /** A convenience method: check the argument locally, then perform the
      event. A rejected argument fails before any request is sent. */
  function Perform(obj: RemoteObject, ev: Result<Event>, resp: Response): (call: Call<RemoteObject>)
    ensures ev.Err? ==> call == Call([], Err(ev.failure))
    ensures ev.Ok? ==> call == PerformEvent(obj, ev.value, resp)
  {
    if ev.Err? then Call([], Err(ev.failure)) else PerformEvent(obj, ev.value, resp)
  }

  /** No convenience method sends a request when its local check fails. */
  lemma LocalChecksSendNothing(obj: RemoteObject, amount: real, medium: Json, resp: Response)
    ensures amount <= 0.0 ==> Perform(obj, PaymentEvent(amount), resp).requests == []
    ensures amount <= 0.0 ==> Perform(obj, CreditAmountEvent(amount), resp).requests == []
    ensures medium !in SendMethods ==> Perform(obj, SendEvent(medium), resp).requests == []
    ensures Truthy(medium) && medium !in ReminderMethods ==>
              Perform(obj, RemindEvent(medium), resp).requests == []
              && Perform(obj, ResendEvent(medium), resp).requests == []
  {
  }

  /** `create_and_send`: check the medium, create the billogram, then send
      it; if sending raises anything, delete the new billogram and raise the
      sending error again, unless the delete itself raises, whose error then
      replaces it. */
  function CreateAndSend(data: Json, medium: Json, createResp: Response, sendResp: Response,
                         deleteResp: Response): (call: Call<RemoteObject>)
    ensures medium !in SendMethods ==> call == Call([], Err(Usage(UnknownMethod)))
    ensures medium in SendMethods ==>
              |call.requests| >= 1 && call.requests[0] == Request(POST, CollectionPath("billogram"), data)
    ensures medium in SendMethods && Create(Billograms, data, createResp).result.Err? ==>
              call == Create(Billograms, data, createResp)
  {
    if medium !in SendMethods then Call([], Err(Usage(UnknownMethod)))
    else
      var created := Create(Billograms, data, createResp);
      if created.result.Err? then created
      else
        var obj := created.result.value;
        var sent := PerformEvent(obj, SendEvent(medium).value, sendResp);
        if sent.result.Ok? then Call(created.requests + sent.requests, sent.result)
        else
          var deleted := Delete(obj, deleteResp);
          Call(created.requests + sent.requests + deleted.requests,
               if deleted.result.Err? then Err(deleted.result.failure) else sent.result)
  }

  /** The billogram `create_and_send` creates, as the service answered. */
  function Created(data: Json, createResp: Response): RemoteObject
    requires Create(Billograms, data, createResp).result.Ok?
  {
    Create(Billograms, data, createResp).result.value
  }

  /** When the billogram was created and sending it worked, the call
      succeeds: exactly the create and the send were posted, nothing is
      deleted, and the result holds the send response's data, not the create
      response's. */
  lemma CreateAndSendSuccess(data: Json, medium: Json, createResp: Response, sendResp: Response,
                             deleteResp: Response)
    requires medium in SendMethods
    requires Create(Billograms, data, createResp).result.Ok?
    requires ObjectId(Created(data, createResp)).Ok?
    requires Classify(sendResp, None).Ok?
    ensures var call := CreateAndSend(data, medium, createResp, sendResp, deleteResp);
            var obj := Created(data, createResp);
            && call.result.Ok?
            && call.requests == [Request(POST, CollectionPath("billogram"), data),
                                 Request(POST, CommandPath("billogram", ObjectId(obj).value, "send"),
                                         JObj(map["method" := medium]))]
            && call.result.value == RemoteObject(Billograms, EnvelopeData(sendResp).value)
  {
  }

  /** When the billogram was created but sending it failed, the last request
      deletes it; the error raised is the sending error if the delete worked
      and the delete's own error if it did not. */
  lemma CreateAndSendCompensates(data: Json, medium: Json, createResp: Response, sendResp: Response,
                                 deleteResp: Response)
    requires medium in SendMethods
    requires Create(Billograms, data, createResp).result.Ok?
    requires ObjectId(Created(data, createResp)).Ok?
    requires Classify(sendResp, None).Err?
    ensures var call := CreateAndSend(data, medium, createResp, sendResp, deleteResp);
            var id := ObjectId(Created(data, createResp)).value;
            && call.requests == [Request(POST, CollectionPath("billogram"), data),
                                 Request(POST, CommandPath("billogram", id, "send"), JObj(map["method" := medium])),
                                 Request(DELETE, MemberPath("billogram", id), JNull)]
            && call.result.Err?
            && (Classify(deleteResp, None).Ok? ==> call.result.failure == Classify(sendResp, None).failure)
            && (Classify(deleteResp, None).Err? ==> call.result.failure == Classify(deleteResp, None).failure)
  {
  }

  /** A created billogram whose data lacks an id cannot be sent or deleted:
      both steps fail on the missing id before any request, so only the
      create was posted and the remote billogram is left in place. */
  lemma CreateAndSendWithoutId(data: Json, medium: Json, createResp: Response, sendResp: Response,
                               deleteResp: Response)
    requires medium in SendMethods
    requires Create(Billograms, data, createResp).result.Ok?
    requires ObjectId(Created(data, createResp)).Err?
    ensures var call := CreateAndSend(data, medium, createResp, sendResp, deleteResp);
            call == Call([Request(POST, CollectionPath("billogram"), data)], Err(Escaped(MissingObjectId)))
  {
  }

  /** `create_and_sell`: create with the `_event` entry set to 'sell', which
      overrides any `_event` the caller's data had. */
  function CreateAndSell(data: map<string, Json>, resp: Response): (call: Call<RemoteObject>)
    ensures call.requests == [Request(POST, CollectionPath("billogram"), JObj(data["_event" := JStr("sell")]))]
    ensures var sent := call.requests[0].payload.fields;
            && sent.Keys == data.Keys + {"_event"} && sent["_event"] == JStr("sell")
            && (forall k :: k in data && k != "_event" ==> sent[k] == data[k])
    ensures call.result == Create(Billograms, JObj(data["_event" := JStr("sell")]), resp).result
  {
    Create(Billograms, JObj(data["_event" := JStr("sell")]), resp)
  }

  /** `','.join(parts)`. */
  function Join(parts: seq<string>): string
    decreases |parts|
  {
    if |parts| == 0 then ""
    else if |parts| == 1 then parts[0]
    else parts[0] + "," + Join(parts[1..])
  }

  /** The position of the first comma of `s`, or `|s|` if there is none. */
  function IndexOfComma(s: string): (i: nat)
    ensures i <= |s|
    ensures forall j :: 0 <= j < i ==> s[j] != ','
    ensures i < |s| ==> s[i] == ','
  {
    if |s| == 0 then 0
    else if s[0] == ',' then 0
    else 1 + IndexOfComma(s[1..])
  }

  /** `s.split(',')`: the pieces of `s` between its commas. */
  function Split(s: string): (parts: seq<string>)
    ensures |parts| >= 1
    decreases |s|
  {
    var i := IndexOfComma(s);
    if i == |s| then [s] else [s[..i]] + Split(s[i + 1..])
  }

  /** Splitting a joined list gives back its parts when none holds a comma. */
  lemma {:induction false} SplitJoin(parts: seq<string>)
    requires |parts| >= 1
    requires forall i :: 0 <= i < |parts| ==> ',' !in parts[i]
    ensures Split(Join(parts)) == parts
    decreases |parts|
  {
    var p := parts[0];
    if |parts| == 1 {
      assert IndexOfComma(p) == |p|;
    } else {
      var rest := Join(parts[1..]);
      var s := p + "," + rest;
      assert s[|p|] == ',';
      assert forall j :: 0 <= j < |p| ==> s[j] == p[j];
      assert IndexOfComma(s) == |p|;
      assert s[..|p|] == p;
      assert s[|p| + 1..] == rest;
      SplitJoin(parts[1..]);
      assert [p] + parts[1..] == parts;
    }
  }

  /** Joining the pieces of a split gives back the string. */
  lemma {:induction false} JoinSplit(s: string)
    ensures Join(Split(s)) == s
    decreases |s|
  {
    var i := IndexOfComma(s);
    if i < |s| {
      var rest := Split(s[i + 1..]);
      JoinSplit(s[i + 1..]);
      var parts := [s[..i]] + rest;
      assert parts[1..] == rest;
      assert Join(parts) == s[..i] + "," + s[i + 1..];
      assert s == s[..i] + [s[i]] + s[i + 1..];
    }
  }

  /** The states given to `filter_state_any`: a single list argument stands
      for its elements. */
  function StateArgs(args: seq<Json>): seq<Json> {
    if |args| == 1 && args[0].JArr? then args[0].elems else args
  }

  /** `BillogramQuery.filter_state_any`: an exact filter on `state` whose
      value is the states joined with commas. Every state must be a string. */
  function FilterStateAny(q: Query, args: seq<Json>): (r: Result<Query>)
    requires q.collection == Billograms
    ensures var states := StateArgs(args);
            r.Ok? <==> forall i :: 0 <= i < |states| ==> states[i].JStr?
    ensures var states := StateArgs(args);
            r.Ok? ==> r.value.filter == FilterOf(JStr("field"), JStr("state"),
                                                 JStr(Join(seq(|states|, i requires 0 <= i < |states| => states[i].s))))
    ensures r.Ok? ==> FilterFrame(q, r.value)
    ensures Valid(q) && r.Ok? ==> Valid(r.value)
    ensures r.Err? ==> r.failure == Usage(NonStringState)
  {
    var states := StateArgs(args);
    if forall i :: 0 <= i < |states| ==> states[i].JStr? then
      FilterField(q, JStr("state"), JStr(Join(seq(|states|, i requires 0 <= i < |states| => states[i].s))))
    else Err(Usage(NonStringState))
  }

  /** Splitting the filter value on commas gives the requested states back,
      provided there is at least one and none contains a comma. */
  lemma StateFilterRoundTrip(q: Query, states: seq<string>)
    requires q.collection == Billograms
    requires |states| >= 1 && forall i :: 0 <= i < |states| ==> ',' !in states[i]
    ensures var args := seq(|states|, i requires 0 <= i < |states| => JStr(states[i]));
            && FilterStateAny(q, [JArr(args)]).Ok?
            && var v := FilterStateAny(q, [JArr(args)]).value.filter["filter_value"];
               v.JStr? && Split(v.s) == states
  {
    var args := seq(|states|, i requires 0 <= i < |states| => JStr(states[i]));
    assert StateArgs([JArr(args)]) == args;
    assert seq(|args|, i requires 0 <= i < |args| => args[i].s) == states;
    SplitJoin(states);
  }

}

=== FILE: classifier.dfy ===
/** `BillogramAPI._check_api_response`: how an HTTP response of the Billogram
    v2 API becomes either a returned value or a raised error.

    The response is abstract: its status code, its content-type header (if
    any), what `resp.json()` decodes the body to (`None` when it cannot), and
    the raw bytes of the body. */
module Classifier {

  import opened Wrappers
  import opened Json
  import opened Errors

  datatype Response = Response(
    statusCode: int,
    contentType: Option<string>,
    body: Option<Json>,
    content: seq<bv8>)

  /** What a successful classification returns: the decoded envelope (a dict
      with `status` and `data`), or the raw body of a non-JSON response. */
  datatype Reply = Envelope(env: map<string, Json>) | Raw(content: seq<bv8>)

  const JsonType: string := "application/json"
  const NotAvailableYet: Json := JStr("NOT_AVAILABLE_YET")

  /** `resp.ok` of the HTTP library: false exactly for 4xx and 5xx codes. */
  predicate IsOk(r: Response) {
    !(400 <= r.statusCode < 600)
  }

  predicate IsServerError(code: int) {
    500 <= code < 600
  }

  /** The content type the classifier holds the response to: a failed
      request, or a call that named none, is expected to answer with JSON. */
  function Expected(r: Response, wanted: Option<string>): (t: string)
    ensures !IsOk(r) || wanted.None? ==> t == JsonType
    ensures IsOk(r) && wanted.Some? ==> t == wanted.value
  {
    if !IsOk(r) || wanted.None? then JsonType else wanted.value
  }

  /** The server's status string mapped to the error class raised for it;
      statuses outside the table give a plain request-data error. */
  function StatusKind(status: Json): (k: ErrorKind)
    ensures IsA(k, RequestData) || k == RequestForm
    ensures k != MissingField && k != ObjectNotFound && k != ObjectNotAvailableYet
  {
    if status == JStr("MISSING_QUERY_PARAMETER") then RequestForm
    else if status == JStr("INVALID_QUERY_PARAMETER") then RequestForm
    else if status == JStr("INVALID_PARAMETER") then InvalidFieldValue
    else if status == JStr("INVALID_PARAMETER_COMBINATION") then InvalidFieldCombination
    else if status == JStr("READ_ONLY_PARAMETER") then ReadOnlyField
    else if status == JStr("UNKNOWN_PARAMETER") then UnknownField
    else if status == JStr("INVALID_OBJECT_STATE") then InvalidObjectState
    else RequestData
  }

  /** `Kind(**errordata)`: the error data must be a dict holding `message`
      (the constructor's positional parameter) and must not name `self`. */
  function BuildError(kind: ErrorKind, errordata: Json): (f: Failure)
    ensures f.Raised? <==> errordata.JObj? && "message" in errordata.fields && "self" !in errordata.fields
    ensures f.Raised? ==> f.error == MakeError(kind, Supplied(errordata.fields["message"]), errordata.fields - {"message"})
    ensures !f.Raised? ==> f == Escaped(BadErrorKeywords)
  {
    match errordata
    case JObj(kw) =>
      if "message" in kw && "self" !in kw
      then Raised(MakeError(kind, Supplied(kw["message"]), kw - {"message"}))
      else Escaped(BadErrorKeywords)
    case _ => Escaped(BadErrorKeywords)
  }

  /** The generic server-error report, and the one that quotes the server. */
  const ServerErrorText: string := "Billogram API reported a server error"

  function ServerReportError(m: map<string, Json>): ApiError
    requires Get(m, "data").JObj?
  {
    MakeError(ServiceMalfunctioning, ServerReport(Get(m, "status"), Get(Get(m, "data").fields, "message")), map[])
  }

  /** The 5xx branch as the library writes it: with a JSON content type it
      reads `data.get('data').get('message')`, which fails outright when the
      body is not a dict holding a dict under `data`. */
  function ServerErrorAsWritten(r: Response, expected: string): (f: Failure)
    // whatever is raised is a service malfunction; nothing is a local assertion
    ensures f.Raised? ==> f.error.kind == ServiceMalfunctioning
    ensures !f.Usage?
    // it escapes exactly when the header is missing, or when JSON is expected
    // and received but the body is not a dict holding a dict under `data`
    ensures f.Escaped? <==>
              r.contentType.None?
              || (r.contentType == Some(expected) && expected == JsonType
                  && !(r.body.Some? && r.body.value.JObj? && Get(r.body.value.fields, "data").JObj?))
  {
    if r.contentType.None? then Escaped(MissingContentType)
    else if r.contentType.value == expected && expected == JsonType then
      match r.body
      case None => Escaped(UndecodableBody)
      case Some(JObj(m)) =>
        if Get(m, "data").JObj? then Raised(ServerReportError(m)) else Escaped(NotAMapping)
      case Some(_) => Escaped(NotAMapping)
    else Raised(Simple(ServiceMalfunctioning, ServerErrorText))
  }

  /** The 5xx branch as intended: a service-malfunction error in every case,
      quoting the server's status and message when the body carries them. */
  function ServerError(r: Response, expected: string): (f: Failure)
    ensures f.Raised? && f.error.kind == ServiceMalfunctioning
    ensures ServerErrorAsWritten(r, expected).Raised? ==> f == ServerErrorAsWritten(r, expected)
  {
    if r.contentType == Some(expected) && expected == JsonType
       && r.body.Some? && r.body.value.JObj? && Get(r.body.value.fields, "data").JObj?
    then Raised(ServerReportError(r.body.value.fields))
    else Raised(Simple(ServiceMalfunctioning, ServerErrorText))
  }

  /** The content type differs from the expected one. */
  function Mismatch(r: Response): (f: Failure)
    requires r.contentType.Some?
    ensures f.Raised? ==> f.error.kind in {ObjectNotAvailableYet, ServiceMalfunctioning}
    ensures f.Raised? && f.error.kind == ObjectNotAvailableYet <==>
              r.contentType == Some(JsonType) && r.body.Some? && r.body.value.JObj?
              && Get(r.body.value.fields, "status") == NotAvailableYet
    // only a JSON answer that does not decode to a dict escapes; every other
    // mismatch raises
    ensures f.Escaped? <==> r.contentType == Some(JsonType) && !(r.body.Some? && r.body.value.JObj?)
    ensures !f.Usage?
  {
    if r.contentType.value == JsonType then
      match r.body
      case None => Escaped(UndecodableBody)
      case Some(JObj(m)) =>
        if Get(m, "status") == NotAvailableYet
        then Raised(Simple(ObjectNotAvailableYet, "Object not available yet"))
        else Raised(Simple(ServiceMalfunctioning, "Billogram API returned unexpected content type"))
      case Some(_) => Escaped(NotAMapping)
    else Raised(Simple(ServiceMalfunctioning, "Billogram API returned unexpected content type"))
  }

  /** The error for a 403 response, by the envelope's status. */
  function Forbidden(status: Json): (e: ApiError)
    ensures IsA(e.kind, PermissionDenied) || e.kind == RequestForm
  {
    if status == JStr("PERMISSION_DENIED") then
      Simple(NotAuthorized, "Not allowed to perform the requested operation")
    else if status == JStr("INVALID_AUTH") then
      Simple(InvalidAuthentication,
             "The user/key combination is wrong, check the credentials "
             + "                     used and possibly generate a new set")
    else if status == JStr("MISSING_AUTH") then
      Simple(RequestForm, "No authentication data was given")
    else
      MakeError(PermissionDenied, DeniedWithStatus(status), map[])
  }

  /** A JSON envelope `m` that arrived with the expected content type. */
  function ClassifyEnvelope(code: int, m: map<string, Json>): (res: Result<Reply>)
    ensures res.Ok? ==> res.value == Envelope(m) && Get(m, "status") == JStr("OK") && "data" in m
                        && code !in {403, 404, 405}
    ensures res.Err? ==> !res.failure.Usage?
    ensures res.Err? && res.failure.Raised? ==>
              res.failure.error.kind != ApiBase && res.failure.error.kind != MissingField
  {
    var status := Get(m, "status");
    if !Truthy(status) then Err(Raised(Simple(ServiceMalfunctioning, "Response data missing status field")))
    else if "data" !in m then Err(Raised(Simple(ServiceMalfunctioning, "Response data missing data field")))
    else if code == 403 then Err(Raised(Forbidden(status)))
    else if code == 404 then
      if status == NotAvailableYet
      then Err(Raised(Simple(ObjectNotFound, "Object not available yet")))
      else Err(Raised(Simple(ObjectNotFound, "Object not found")))
    else if code == 405 then Err(Raised(Simple(RequestForm, "Invalid HTTP method")))
    else if status == JStr("OK") then Ok(Envelope(m))
    else if !Hashable(status) then Err(Escaped(UnhashableStatus))
    else Err(BuildError(StatusKind(status), m["data"]))
  }

  /** Everything after the 5xx check. */
  function ClassifyRest(r: Response, expected: string): (res: Result<Reply>)
    ensures res.Ok? && res.value.Raw? ==>
              expected != JsonType && r.contentType == Some(expected) && res.value.content == r.content
    ensures res.Ok? && res.value.Envelope? ==>
              expected == JsonType && r.contentType == Some(JsonType) && r.body == Some(JObj(res.value.env))
              && Get(res.value.env, "status") == JStr("OK") && "data" in res.value.env
              && r.statusCode !in {403, 404, 405}
    ensures res.Err? ==> !res.failure.Usage?
    ensures res.Err? && res.failure.Raised? ==>
              res.failure.error.kind != ApiBase && res.failure.error.kind != MissingField
  {
    if r.contentType.None? then Err(Escaped(MissingContentType))
    else if r.contentType.value != expected then Err(Mismatch(r))
    else if expected != JsonType then Ok(Raw(r.content))
    else
      match r.body
      case None => Err(Escaped(UndecodableBody))
      case Some(JObj(m)) => ClassifyEnvelope(r.statusCode, m)
      case Some(_) => Err(Escaped(NotAMapping))
  }

  /** `_check_api_response` exactly as written, 5xx branch included. */
  function ClassifyAsWritten(r: Response, wanted: Option<string>): (res: Result<Reply>)
    // a 5xx status never returns, and what it raises is a malfunction
    ensures IsServerError(r.statusCode) ==> res.Err?
    ensures IsServerError(r.statusCode) && res.failure.Raised? ==>
              res.failure.error.kind == ServiceMalfunctioning
    // a 5xx answer declared as the expected JSON escapes unless its body is a
    // dict holding a dict under `data`
    ensures IsServerError(r.statusCode) && r.contentType == Some(JsonType) && Expected(r, wanted) == JsonType ==>
              (res.failure.Escaped? <==>
                 !(r.body.Some? && r.body.value.JObj? && Get(r.body.value.fields, "data").JObj?))
    // raw content only for a successful response of the non-JSON type asked for
    ensures res.Ok? && res.value.Raw? ==>
              IsOk(r) && wanted.Some? && wanted.value != JsonType
              && r.contentType == wanted && res.value.content == r.content
    // an envelope is returned unchanged, and only when it reports OK with data
    ensures res.Ok? && res.value.Envelope? ==>
              r.contentType == Some(JsonType) && r.body == Some(JObj(res.value.env))
              && Get(res.value.env, "status") == JStr("OK") && "data" in res.value.env
              && !IsServerError(r.statusCode) && r.statusCode !in {403, 404, 405}
    ensures res.Err? ==> !res.failure.Usage?
  {
    var expected := Expected(r, wanted);
    if IsServerError(r.statusCode) then Err(ServerErrorAsWritten(r, expected))
    else ClassifyRest(r, expected)
  }

  /** `_check_api_response` with the 5xx branch that never fails outright. */
  function Classify(r: Response, wanted: Option<string>): (res: Result<Reply>)
    // any 5xx status is a service malfunction, whatever the headers or body
    ensures IsServerError(r.statusCode) ==> res.Err? && res.failure.Raised?
                                            && res.failure.error.kind == ServiceMalfunctioning
    // raw content only for a successful response of the non-JSON type asked for
    ensures res.Ok? && res.value.Raw? ==>
              IsOk(r) && wanted.Some? && wanted.value != JsonType
              && r.contentType == wanted && res.value.content == r.content
    // an envelope is returned unchanged, and only when it reports OK with data
    ensures res.Ok? && res.value.Envelope? ==>
              r.contentType == Some(JsonType) && r.body == Some(JObj(res.value.env))
              && Get(res.value.env, "status") == JStr("OK") && "data" in res.value.env
              && !IsServerError(r.statusCode) && r.statusCode !in {403, 404, 405}
    // the classifier never fails a local assertion, never raises the bare
    // base class, and has no status that leads to a missing-field error
    ensures res.Err? ==> !res.failure.Usage?
    ensures res.Err? && res.failure.Raised? ==>
              res.failure.error.kind != ApiBase && res.failure.error.kind != MissingField
    // it agrees with the code as written wherever that raises or returns
    ensures !(ClassifyAsWritten(r, wanted).Err? && ClassifyAsWritten(r, wanted).failure.Escaped?)
            ==> res == ClassifyAsWritten(r, wanted)
  {
    var expected := Expected(r, wanted);
    if IsServerError(r.statusCode) then Err(ServerError(r, expected))
    else ClassifyRest(r, expected)
  }

}

=== FILE: classifier_facts.dfy ===
/** Branch-by-branch facts about the response classifier: for each kind of
    response, which value is returned or which error class is raised. */
module ClassifierFacts {

  import opened Wrappers
  import opened Json
  import opened Errors
  import opened Classifier

  /** The body is a JSON envelope with a truthy status and a `data` entry. */
  predicate WellFormed(m: map<string, Json>) {
    Truthy(Get(m, "status")) && "data" in m
  }

  /** The statuses the classifier's table names. */
  const TableStatuses: set<Json> :=
    {JStr("MISSING_QUERY_PARAMETER"), JStr("INVALID_QUERY_PARAMETER"), JStr("INVALID_PARAMETER"),
     JStr("INVALID_PARAMETER_COMBINATION"), JStr("READ_ONLY_PARAMETER"), JStr("UNKNOWN_PARAMETER"),
     JStr("INVALID_OBJECT_STATE")}

  /** A response with a JSON content type whose body decodes to `m`, outside
      the 5xx range, answering a call that expects JSON. */
  predicate JsonAnswer(r: Response, wanted: Option<string>, m: map<string, Json>) {
    && !IsServerError(r.statusCode)
    && Expected(r, wanted) == JsonType
    && r.contentType == Some(JsonType)
    && r.body == Some(JObj(m))
  }

  /** A content type other than the expected one is a malfunction, except
      that a JSON body reporting NOT_AVAILABLE_YET means the object is not
      available yet. */
  lemma UnexpectedContentType(r: Response, wanted: Option<string>)
    requires !IsServerError(r.statusCode)
    requires r.contentType.Some? && r.contentType.value != Expected(r, wanted)
    ensures Classify(r, wanted) == Err(Mismatch(r))
    ensures Classify(r, wanted).failure.Raised? ==>
              Classify(r, wanted).failure.error.kind in {ObjectNotAvailableYet, ServiceMalfunctioning}
    ensures (Classify(r, wanted).failure.Raised? && Classify(r, wanted).failure.error.kind == ObjectNotAvailableYet)
            <==> (r.contentType == Some(JsonType) && r.body.Some? && r.body.value.JObj?
                  && Get(r.body.value.fields, "status") == NotAvailableYet)
    ensures r.contentType != Some(JsonType) ==>
              Classify(r, wanted) == Err(Raised(Simple(ServiceMalfunctioning, "Billogram API returned unexpected content type")))
    ensures r.contentType == Some(JsonType) && r.body.Some? && r.body.value.JObj?
            && Get(r.body.value.fields, "status") != NotAvailableYet ==>
              Classify(r, wanted) == Err(Raised(Simple(ServiceMalfunctioning, "Billogram API returned unexpected content type")))
  {
  }

  /** The raw body is returned exactly when a successful response carries the
      non-JSON content type the caller asked for; no status is inspected. */
  lemma RawIff(r: Response, wanted: Option<string>)
    ensures (Classify(r, wanted) == Ok(Raw(r.content))) <==>
              (!IsServerError(r.statusCode) && IsOk(r) && wanted.Some?
               && wanted.value != JsonType && r.contentType == wanted)
  {
  }

  /** An envelope without a truthy status or without data is a malfunction. */
  lemma MalformedEnvelope(r: Response, wanted: Option<string>, m: map<string, Json>)
    requires JsonAnswer(r, wanted, m) && !WellFormed(m)
    ensures Classify(r, wanted).Err? && Classify(r, wanted).failure.Raised?
    ensures Classify(r, wanted).failure.error.kind == ServiceMalfunctioning
  {
  }

  /** Status 403 maps the envelope's status to an authorization error. */
  lemma Forbidden403(r: Response, wanted: Option<string>, m: map<string, Json>)
    requires r.statusCode == 403 && r.contentType == Some(JsonType) && r.body == Some(JObj(m))
    requires WellFormed(m)
    ensures Classify(r, wanted).Err? && Classify(r, wanted).failure.Raised?
    ensures var k := Classify(r, wanted).failure.error.kind;
            var status := Get(m, "status");
            && (status == JStr("PERMISSION_DENIED") ==> k == NotAuthorized)
            && (status == JStr("INVALID_AUTH") ==> k == InvalidAuthentication)
            && (status == JStr("MISSING_AUTH") ==> k == RequestForm)
            && (status !in {JStr("PERMISSION_DENIED"), JStr("INVALID_AUTH"), JStr("MISSING_AUTH")}
                ==> k == PermissionDenied && Classify(r, wanted).failure.error.message == DeniedWithStatus(status))
  {
  }

  /** Status 404 is always the plain not-found class, even when the server
      says NOT_AVAILABLE_YET; status 405 is a malformed request. */
  lemma NotFoundAndBadMethod(r: Response, wanted: Option<string>, m: map<string, Json>)
    requires r.statusCode in {404, 405} && r.contentType == Some(JsonType) && r.body == Some(JObj(m))
    requires WellFormed(m)
    ensures Classify(r, wanted).Err? && Classify(r, wanted).failure.Raised?
    ensures r.statusCode == 404 ==> Classify(r, wanted).failure.error.kind == ObjectNotFound
    ensures r.statusCode == 405 ==> Classify(r, wanted).failure.error.kind == RequestForm
  {
  }

  /** The envelope is handed back, unchanged, exactly when it is a JSON
      envelope reporting OK with data under a status code that none of the
      earlier branches claims. */
  lemma EnvelopeIff(r: Response, wanted: Option<string>, m: map<string, Json>)
    ensures Classify(r, wanted) == Ok(Envelope(m)) <==>
              (JsonAnswer(r, wanted, m) && "data" in m && Get(m, "status") == JStr("OK")
               && r.statusCode !in {403, 404, 405})
  {
  }

  /** Any other status goes through the table, and the error is built from
      the envelope's `data`. */
  lemma StatusTable(r: Response, wanted: Option<string>, m: map<string, Json>)
    requires JsonAnswer(r, wanted, m) && WellFormed(m) && r.statusCode !in {403, 404, 405}
    requires Get(m, "status") != JStr("OK") && Hashable(Get(m, "status"))
    ensures Classify(r, wanted) == Err(BuildError(StatusKind(Get(m, "status")), m["data"]))
    // the table itself, status by status; each error is raised when the
    // error data can be passed as keywords
    ensures var st, f := Get(m, "status"), Classify(r, wanted).failure;
            f.Raised? ==>
              && (st == JStr("MISSING_QUERY_PARAMETER") ==> f.error.kind == RequestForm)
              && (st == JStr("INVALID_QUERY_PARAMETER") ==> f.error.kind == RequestForm)
              && (st == JStr("INVALID_PARAMETER") ==> f.error.kind == InvalidFieldValue)
              && (st == JStr("INVALID_PARAMETER_COMBINATION") ==> f.error.kind == InvalidFieldCombination)
              && (st == JStr("READ_ONLY_PARAMETER") ==> f.error.kind == ReadOnlyField)
              && (st == JStr("UNKNOWN_PARAMETER") ==> f.error.kind == UnknownField)
              && (st == JStr("INVALID_OBJECT_STATE") ==> f.error.kind == InvalidObjectState)
              && (st !in TableStatuses ==> f.error.kind == RequestData)
  {
  }

  /** A 500 response declared as JSON whose body has no dict under `data`:
      the code as written fails with an AttributeError instead of raising
      a service-malfunction error. */
  lemma ServerErrorWithoutData()
    ensures var r := Response(500, Some(JsonType), Some(JObj(map["status" := JStr("ERROR")])), []);
            && ClassifyAsWritten(r, None) == Err(Escaped(NotAMapping))
            && Classify(r, None) == Err(Raised(Simple(ServiceMalfunctioning, ServerErrorText)))
  {
    var r := Response(500, Some(JsonType), Some(JObj(map["status" := JStr("ERROR")])), []);
    assert "data" !in r.body.value.fields;
  }

  /** A PUT answered with 403 and `{"status": "INVALID_AUTH", "data": {}}`
      raises an invalid-authentication error, which `except
      PermissionDeniedError` also catches. */
  lemma InvalidAuthScenario()
    ensures var r := Response(403, Some(JsonType),
                              Some(JObj(map["status" := JStr("INVALID_AUTH"), "data" := JObj(map[])])), []);
            && Classify(r, None).Err? && Classify(r, None).failure.Raised?
            && Classify(r, None).failure.error.kind == InvalidAuthentication
            && IsA(Classify(r, None).failure.error.kind, PermissionDenied)
  {
  }

}

=== FILE: errors.dfy ===
/** The client's error vocabulary: the class hierarchy of API errors, the
    record an API error carries, and the other ways a call can fail (a Python
    exception that is not an API error, or a failed local `assert`). */
module Errors {

  import opened Wrappers
  import opened Json

  /** One constructor per exception class of the library. */
  datatype ErrorKind =
    | ApiBase                  // BillogramAPIError
    | ServiceMalfunctioning
    | RequestForm
    | PermissionDenied
    | InvalidAuthentication
    | NotAuthorized
    | RequestData
    | UnknownField
    | MissingField
    | InvalidFieldCombination
    | InvalidFieldValue
    | ReadOnlyField
    | InvalidObjectState
    | ObjectNotFound
    | ObjectNotAvailableYet

  /** Distance from the root class `BillogramAPIError`. */
  function Depth(k: ErrorKind): nat {
    match k
    case ApiBase => 0
    case ServiceMalfunctioning | RequestForm | PermissionDenied | RequestData => 1
    case InvalidAuthentication | NotAuthorized => 2
    case UnknownField | MissingField | InvalidFieldCombination | InvalidFieldValue => 2
    case ReadOnlyField | InvalidObjectState | ObjectNotFound => 2
    case ObjectNotAvailableYet => 3
  }

  /** The direct base class of each error class; only the root has none. */
  function Parent(k: ErrorKind): (p: Option<ErrorKind>)
    ensures p.None? <==> k == ApiBase
    ensures p.Some? ==> Depth(p.value) + 1 == Depth(k)
  {
    match k
    case ApiBase => None
    case ServiceMalfunctioning | RequestForm | PermissionDenied | RequestData => Some(ApiBase)
    case InvalidAuthentication | NotAuthorized => Some(PermissionDenied)
    case UnknownField | MissingField | InvalidFieldCombination | InvalidFieldValue => Some(RequestData)
    case ReadOnlyField | InvalidObjectState | ObjectNotFound => Some(RequestData)
    case ObjectNotAvailableYet => Some(ObjectNotFound)
  }

  /** `issubclass(a, b)`: an `except b` clause catches an error of kind `a`. */
  predicate IsA(a: ErrorKind, b: ErrorKind)
    decreases Depth(a)
  {
    a == b || (a != ApiBase && IsA(Parent(a).value, b))
  }

  /** The same relation written out as a table of every class's bases. */
  function Lineage(k: ErrorKind): set<ErrorKind> {
    match k
    case ApiBase => {ApiBase}
    case ServiceMalfunctioning => {ServiceMalfunctioning, ApiBase}
    case RequestForm => {RequestForm, ApiBase}
    case PermissionDenied => {PermissionDenied, ApiBase}
    case InvalidAuthentication => {InvalidAuthentication, PermissionDenied, ApiBase}
    case NotAuthorized => {NotAuthorized, PermissionDenied, ApiBase}
    case RequestData => {RequestData, ApiBase}
    case UnknownField => {UnknownField, RequestData, ApiBase}
    case MissingField => {MissingField, RequestData, ApiBase}
    case InvalidFieldCombination => {InvalidFieldCombination, RequestData, ApiBase}
    case InvalidFieldValue => {InvalidFieldValue, RequestData, ApiBase}
    case ReadOnlyField => {ReadOnlyField, RequestData, ApiBase}
    case InvalidObjectState => {InvalidObjectState, RequestData, ApiBase}
    case ObjectNotFound => {ObjectNotFound, RequestData, ApiBase}
    case ObjectNotAvailableYet => {ObjectNotAvailableYet, ObjectNotFound, RequestData, ApiBase}
  }

  /** Every error class derives from `BillogramAPIError`. */
  lemma {:induction false} EveryKindIsApiError(k: ErrorKind)
    ensures IsA(k, ApiBase)
    decreases Depth(k)
  {
    if k != ApiBase {
      EveryKindIsApiError(Parent(k).value);
    }
  }

  lemma {:induction false} IsATransitive(a: ErrorKind, b: ErrorKind, c: ErrorKind)
    requires IsA(a, b) && IsA(b, c)
    ensures IsA(a, c)
    decreases Depth(a)
  {
    if a != b {
      IsATransitive(Parent(a).value, b, c);
    }
  }

  /** A subclass lies strictly deeper than any of its proper bases. */
  lemma {:induction false} IsADeepens(a: ErrorKind, b: ErrorKind)
    requires IsA(a, b)
    ensures Depth(b) <= Depth(a)
    ensures Depth(b) == Depth(a) ==> a == b
    decreases Depth(a)
  {
    if a != b {
      IsADeepens(Parent(a).value, b);
    }
  }

  lemma IsAAntisymmetric(a: ErrorKind, b: ErrorKind)
    requires IsA(a, b) && IsA(b, a)
    ensures a == b
  {
    IsADeepens(a, b);
    IsADeepens(b, a);
  }

  /** Each row of the table adds one class to its base's row. */
  lemma LineageStep(a: ErrorKind)
    ensures a == ApiBase ==> Lineage(a) == {a}
    ensures a != ApiBase ==> Lineage(a) == {a} + Lineage(Parent(a).value)
  {
  }

  /** The recursive relation and the written-out table agree. */
  lemma {:induction false} IsAMatchesLineage(a: ErrorKind, b: ErrorKind)
    ensures IsA(a, b) <==> b in Lineage(a)
    decreases Depth(a)
  {
    LineageStep(a);
    if a != ApiBase {
      IsAMatchesLineage(Parent(a).value, b);
    }
  }

  /** How the text of an error message was formed. Messages the library
      formats from server data keep that data rather than the formatted text. */
  datatype Message =
    | Text(text: string)                        // a fixed message of the library's own
    | ServerReport(status: Json, detail: Json)  // 'reported a server error: {status} - {message}'
    | DeniedWithStatus(status: Json)            // 'Permission denied, status={status}'
    | Supplied(value: Json)                     // the 'message' entry of the server's error data

  /** An instance of one of the error classes, with the attributes the
      constructor sets. `extra` is `None` when no other keyword was given. */
  datatype ApiError = ApiError(
    kind: ErrorKind,
    message: Message,
    field: Json,
    fieldPath: Json,
    extra: Option<map<string, Json>>)

  /** The keywords `BillogramAPIError.__init__` lifts into their own attributes. */
  const Lifted: set<string> := {"field", "field_path"}

  /** `Kind(message, **kwargs)`: `field` and `field_path` are taken out of the
      keywords; what remains becomes `extra_data`, or `None` if nothing does. */
  function MakeError(kind: ErrorKind, message: Message, kwargs: map<string, Json>): (e: ApiError)
    ensures e.kind == kind && e.message == message
    ensures "field" in kwargs ==> e.field == kwargs["field"]
    ensures "field" !in kwargs ==> e.field == JNull
    ensures "field_path" in kwargs ==> e.fieldPath == kwargs["field_path"]
    ensures "field_path" !in kwargs ==> e.fieldPath == JNull
    ensures e.extra.None? <==> kwargs.Keys <= Lifted
    ensures e.extra.Some? ==> e.extra.value.Keys == kwargs.Keys - Lifted
    ensures e.extra.Some? ==> forall k :: k in e.extra.value ==> e.extra.value[k] == kwargs[k]
  {
    var rest := kwargs - Lifted;
    assert rest.Keys == kwargs.Keys - Lifted;
    ApiError(kind, message, Get(kwargs, "field"), Get(kwargs, "field_path"),
             if |rest| == 0 then None else Some(rest))
  }

  /** An error carrying only a fixed message and no keyword data. */
  function Simple(kind: ErrorKind, text: string): ApiError {
    MakeError(kind, Text(text), map[])
  }

  /** The keyword map an error's attributes describe: `extra_data` with the
      non-`None` `field` and `field_path` put back. */
  function Keywords(e: ApiError): map<string, Json> {
    var base := if e.extra.Some? then e.extra.value else map[];
    var withField := if e.field == JNull then base else base["field" := e.field];
    if e.fieldPath == JNull then withField else withField["field_path" := e.fieldPath]
  }

  /** Constructing an error loses nothing: the keywords can be read back from
      its attributes, unless `field` or `field_path` was passed explicitly as
      `None`, which is indistinguishable from leaving it out. */
  lemma MakeErrorKeepsKeywords(kind: ErrorKind, message: Message, kwargs: map<string, Json>)
    requires "field" in kwargs ==> kwargs["field"] != JNull
    requires "field_path" in kwargs ==> kwargs["field_path"] != JNull
    ensures Keywords(MakeError(kind, message, kwargs)) == kwargs
  {
    var e := MakeError(kind, message, kwargs);
    var rest := kwargs - Lifted;
    var base := if e.extra.Some? then e.extra.value else map[];
    assert base == rest by {
      if e.extra.None? {
        assert rest.Keys == {};
      }
    }
    PutBackLifted(kwargs);
  }

  lemma PutBackLifted<V>(kwargs: map<string, V>)
    ensures var rest := kwargs - Lifted;
            var withField := if "field" in kwargs then rest["field" := kwargs["field"]] else rest;
            (if "field_path" in kwargs then withField["field_path" := kwargs["field_path"]] else withField) == kwargs
  {
  }

  /** Why a local `assert` of the library failed (an `AssertionError`). */
  datatype UsageReason =
    | MalformedFilter       // filter lacks filter_type, filter_field or filter_value
    | UnknownFilterType
    | MalformedOrder        // order lacks order_field or order_direction
    | UnknownOrderDirection
    | PageSizeTooSmall
    | NonPositiveAmount
    | UnknownMethod
    | NonStringState

  /** Python exceptions other than API errors that escape the library. */
  datatype Fault =
    | MissingContentType   // KeyError: no content-type header on the response
    | UndecodableBody      // ValueError: resp.json() could not decode the body
    | NotAMapping          // AttributeError: .get called on a value that is not a dict
    | UnhashableStatus     // TypeError: a list or dict status used as a dict key
    | BadErrorKeywords     // TypeError: the server's error data cannot be **-passed
    | MissingObjectId      // the object's snapshot has no identifying field
    | NoneSubscripted      // TypeError: `get(None)` looks the id up in `None`

  /** Everything a call of the library can raise. */
  datatype Failure =
    | Raised(error: ApiError)
    | Escaped(fault: Fault)
    | Usage(reason: UsageReason)

  /** The value a call returns, or what it raises. */
  datatype Result<+T> = Ok(value: T) | Err(failure: Failure)

}

=== FILE: json.dfy ===
/** Decoded JSON values as the Python client sees them after `resp.json()`.

    JSON `null` and Python's `None` are the same value here (`JNull`), so the
    result of `dict.get(key)` for an absent key is `JNull`, exactly as a
    present key holding `null` would be. Numbers are kept as reals. */
module Json {

  datatype Json =
    | JNull
    | JBool(b: bool)
    | JNum(n: real)
    | JStr(s: string)
    | JArr(elems: seq<Json>)
    | JObj(fields: map<string, Json>)

  /** Python's truth value of a decoded JSON value (`if value:`). */
  predicate Truthy(v: Json) {
    match v
    case JNull => false
    case JBool(b) => b
    case JNum(n) => n != 0.0
    case JStr(s) => |s| > 0
    case JArr(xs) => |xs| > 0
    case JObj(m) => |m| > 0
  }

  /** `d.get(key)`: the entry, or `None` when the key is absent. */
  function Get(m: map<string, Json>, key: string): Json {
    if key in m then m[key] else JNull
  }

  /** Lists and dicts cannot be used as dictionary keys in Python. */
  predicate Hashable(v: Json) {
    !v.JArr? && !v.JObj?
  }

}

=== FILE: objects.dfy ===
/** Collections of remote objects and the objects themselves, with the
    requests they issue. Each request's HTTP response is a parameter: the
    model decides what the client does with whatever the service answers. */
module Objects {

  import opened Wrappers
  import opened Json
  import opened Errors
  import opened Classifier

  /** A collection type: its URL name and the data field identifying a member. */
  datatype Collection = Collection(urlName: string, idField: string)

  const Items: Collection := Collection("item", "item_no")
  const Customers: Collection := Collection("customer", "customer_no")
  const Reports: Collection := Collection("report", "filename")
  const Billograms: Collection := Collection("billogram", "id")

  /** A local mirror of a remote object: the latest snapshot of its data. */
  datatype RemoteObject = RemoteObject(collection: Collection, snapshot: Json)

  datatype Verb = GET | POST | PUT | DELETE

  /** The URL of a request below the API base. */
  datatype Path =
    | CollectionPath(urlName: string)                          // '<type>'
    | MemberPath(urlName: string, id: Json)                    // '<type>/<id>'
    | CommandPath(urlName: string, id: Json, event: string)    // '<type>/<id>/command/<event>'

  /** A request sent to the service; `payload` is the query parameters of a
      GET or the JSON body of a POST or PUT (`JNull` when there is none). */
  datatype Request = Request(verb: Verb, path: Path, payload: Json)

  /** What a call did: the requests it sent, in order, and its outcome. */
  datatype Call<+T> = Call(requests: seq<Request>, result: Result<T>)

  /** `resp['data']` of a call that expects the standard JSON envelope. */
  function EnvelopeData(resp: Response): (d: Result<Json>)
    ensures d.Err? <==> Classify(resp, None).Err?
    ensures d.Err? ==> d.failure == Classify(resp, None).failure
    ensures d.Ok? ==> Classify(resp, None) == Ok(Envelope(resp.body.value.fields))
                      && d.value == resp.body.value.fields["data"]
  {
    var c := Classify(resp, None);
    if c.Err? then Err(c.failure) else Ok(c.value.env["data"])
  }

  /** `obj[id_field]` on the snapshot. */
  function ObjectId(obj: RemoteObject): (id: Result<Json>)
    ensures id.Ok? <==> obj.snapshot.JObj? && obj.collection.idField in obj.snapshot.fields
    ensures id.Ok? ==> id.value == obj.snapshot.fields[obj.collection.idField]
    ensures id.Err? ==> id.failure == Escaped(MissingObjectId)
  {
    if obj.snapshot.JObj? && obj.collection.idField in obj.snapshot.fields
    then Ok(obj.snapshot.fields[obj.collection.idField])
    else Err(Escaped(MissingObjectId))
  }

  /** `self._data = resp['data']`: the snapshot is replaced wholesale by the
      response's data; on any error the object is left as it was and the
      error is raised. */
  function ReplaceSnapshot(obj: RemoteObject, resp: Response): (r: Result<RemoteObject>)
    ensures r.Ok? <==> Classify(resp, None).Ok?
    ensures r.Ok? ==> r.value.collection == obj.collection
                      && r.value.snapshot == EnvelopeData(resp).value
    ensures r.Err? ==> r.failure == Classify(resp, None).failure
  {
    var d := EnvelopeData(resp);
    if d.Err? then Err(d.failure) else Ok(obj.(snapshot := d.value))
  }

  /** `SimpleClass.get`: fetch one member by its identification. An id of
      `None` makes the URL helper look the id up in `None`, which fails
      before any request is sent. */
  function Fetch(c: Collection, id: Json, resp: Response): (call: Call<RemoteObject>)
    ensures id == JNull ==> call == Call([], Err(Escaped(NoneSubscripted)))
    ensures id != JNull ==> call.requests == [Request(GET, MemberPath(c.urlName, id), JNull)]
    ensures id != JNull ==> (call.result.Ok? <==> EnvelopeData(resp).Ok?)
    ensures id != JNull && call.result.Ok? ==> call.result.value == RemoteObject(c, EnvelopeData(resp).value)
    ensures id != JNull && call.result.Err? ==> call.result.failure == Classify(resp, None).failure
  {
    if id == JNull then Call([], Err(Escaped(NoneSubscripted)))
    else
      var d := EnvelopeData(resp);
      Call([Request(GET, MemberPath(c.urlName, id), JNull)],
           if d.Err? then Err(d.failure) else Ok(RemoteObject(c, d.value)))
  }

  /** `SimpleClass.create`: post the data to the collection; the new object's
      snapshot is what the service answers, not what was sent. */
  function Create(c: Collection, data: Json, resp: Response): (call: Call<RemoteObject>)
    ensures call.requests == [Request(POST, CollectionPath(c.urlName), data)]
    ensures call.result.Ok? <==> EnvelopeData(resp).Ok?
    ensures call.result.Ok? ==> call.result.value == RemoteObject(c, EnvelopeData(resp).value)
    ensures call.result.Err? ==> call.result.failure == Classify(resp, None).failure
  {
    var d := EnvelopeData(resp);
    Call([Request(POST, CollectionPath(c.urlName), data)],
         if d.Err? then Err(d.failure) else Ok(RemoteObject(c, d.value)))
  }

  /** `refresh`: re-fetch the object at its own URL and replace the snapshot. */
  function Refresh(obj: RemoteObject, resp: Response): (call: Call<RemoteObject>)
    ensures ObjectId(obj).Err? ==> call == Call([], Err(Escaped(MissingObjectId)))
    ensures ObjectId(obj).Ok? ==>
              call.requests == [Request(GET, MemberPath(obj.collection.urlName, ObjectId(obj).value), JNull)]
              && call.result == ReplaceSnapshot(obj, resp)
  {
    var id := ObjectId(obj);
    if id.Err? then Call([], Err(id.failure))
    else Call([Request(GET, MemberPath(obj.collection.urlName, id.value), JNull)], ReplaceSnapshot(obj, resp))
  }

  /** `update`: put partial or complete data and take the service's answer
      as the new snapshot, with no merge of the old one. */
  function Update(obj: RemoteObject, data: Json, resp: Response): (call: Call<RemoteObject>)
    ensures ObjectId(obj).Err? ==> call == Call([], Err(Escaped(MissingObjectId)))
    ensures ObjectId(obj).Ok? ==>
              call.requests == [Request(PUT, MemberPath(obj.collection.urlName, ObjectId(obj).value), data)]
              && call.result == ReplaceSnapshot(obj, resp)
  {
    var id := ObjectId(obj);
    if id.Err? then Call([], Err(id.failure))
    else Call([Request(PUT, MemberPath(obj.collection.urlName, id.value), data)], ReplaceSnapshot(obj, resp))
  }

  /** `delete`: remove the remote object; the call returns nothing. */
  function Delete(obj: RemoteObject, resp: Response): (call: Call<()>)
    ensures ObjectId(obj).Err? ==> call == Call([], Err(Escaped(MissingObjectId)))
    ensures ObjectId(obj).Ok? ==>
              call.requests == [Request(DELETE, MemberPath(obj.collection.urlName, ObjectId(obj).value), JNull)]
              && (call.result.Ok? <==> Classify(resp, None).Ok?)
              && (call.result.Err? ==> call.result.failure == Classify(resp, None).failure)
  {
    var id := ObjectId(obj);
    if id.Err? then Call([], Err(id.failure))
    else
      var c := Classify(resp, None);
      Call([Request(DELETE, MemberPath(obj.collection.urlName, id.value), JNull)],
           if c.Err? then Err(c.failure) else Ok(()))
  }

  /** Two objects whose snapshots differ end up identical after the same
      successful refresh: nothing of the old snapshot survives. */
  lemma ReplacementForgetsOldSnapshot(a: RemoteObject, b: RemoteObject, resp: Response)
    requires a.collection == b.collection
    requires Classify(resp, None).Ok?
    ensures ReplaceSnapshot(a, resp) == ReplaceSnapshot(b, resp)
  {
  }

}

=== FILE: queries.dfy ===
/** `Query`: the filter, order and page size of a listing of a collection,
    with the total count cached until the filter changes.

    A setter that the library guards with `assert` returns `Err(Usage(..))`
    when the assertion fails; the query it was called on is then unchanged.
    Remote answers are parameters: the total count the service reports, or
    the page it returns. */
module Queries {

  import opened Wrappers
  import opened Json
  import opened Errors
  import opened Objects

  datatype Query = Query(
    collection: Collection,
    filter: map<string, Json>,
    order: map<string, Json>,
    pageSize: int,
    countCached: Option<int>)

  const DefaultPageSize: int := 100

  const FilterTypes: set<Json> :=
    {JStr("field"), JStr("field-prefix"), JStr("field-search"), JStr("special")}

  const OrderDirections: set<Json> := {JStr("asc"), JStr("desc")}

  /** An empty filter, or one naming a known type, a field and a value. */
  predicate WellFormedFilter(f: map<string, Json>) {
    |f| == 0 ||
    ("filter_type" in f && "filter_field" in f && "filter_value" in f && f["filter_type"] in FilterTypes)
  }

  /** An empty order, or one naming a field and a known direction. */
  predicate WellFormedOrder(o: map<string, Json>) {
    |o| == 0 ||
    ("order_field" in o && "order_direction" in o && o["order_direction"] in OrderDirections)
  }

  /** What every query reachable through the setters satisfies. */
  predicate Valid(q: Query) {
    q.pageSize >= 1 && WellFormedFilter(q.filter) && WellFormedOrder(q.order)
  }

  /** `SimpleClass.query()`: no filter, no order, 100 per page, no count yet. */
  function NewQuery(c: Collection): (q: Query)
    ensures Valid(q)
    ensures q.collection == c && q.countCached.None? && q.pageSize == DefaultPageSize
    ensures |q.filter| == 0 && |q.order| == 0
  {
    Query(c, map[], map[], DefaultPageSize, None)
  }

  /** The `filter` setter. Assigning the current filter is a no-op that keeps
      the cached count; any other accepted value replaces the filter and
      drops the cached count. */
  function SetFilter(q: Query, value: map<string, Json>): (r: Result<Query>)
    ensures r.Ok? <==> value == q.filter || WellFormedFilter(value)
    ensures value == q.filter ==> r == Ok(q)
    ensures r.Ok? ==> r.value.filter == value
    ensures r.Ok? && value != q.filter ==> r.value.countCached.None?
    ensures r.Ok? ==> r.value.order == q.order && r.value.pageSize == q.pageSize
                      && r.value.collection == q.collection
    ensures r.Err? ==> r.failure.Usage?
    ensures Valid(q) && r.Ok? ==> Valid(r.value)
  {
    if value == q.filter then Ok(q)
    else if |value| > 0 then
      if !("filter_type" in value && "filter_field" in value && "filter_value" in value)
      then Err(Usage(MalformedFilter))
      else if value["filter_type"] !in FilterTypes then Err(Usage(UnknownFilterType))
      else Ok(q.(filter := value, countCached := None))
    else Ok(q.(filter := map[], countCached := None))
  }

  /** The `order` setter: ordering does not change the count, so the cached
      count is kept. */
  function SetOrder(q: Query, value: map<string, Json>): (r: Result<Query>)
    ensures r.Ok? <==> WellFormedOrder(value)
    ensures r.Ok? ==> r.value.order == value
    ensures r.Ok? ==> r.value.filter == q.filter && r.value.pageSize == q.pageSize
                      && r.value.countCached == q.countCached && r.value.collection == q.collection
    ensures r.Err? ==> r.failure.Usage?
    ensures Valid(q) && r.Ok? ==> Valid(r.value)
  {
    if |value| > 0 then
      if !("order_field" in value && "order_direction" in value) then Err(Usage(MalformedOrder))
      else if value["order_direction"] !in OrderDirections then Err(Usage(UnknownOrderDirection))
      else Ok(q.(order := value))
    else Ok(q.(order := map[]))
  }

  /** The `page_size` setter: at least one object per page. */
  function SetPageSize(q: Query, size: int): (r: Result<Query>)
    ensures r.Ok? <==> size >= 1
    ensures r.Ok? ==> r.value.pageSize == size
    ensures r.Ok? ==> r.value.filter == q.filter && r.value.order == q.order
                      && r.value.countCached == q.countCached && r.value.collection == q.collection
    ensures r.Err? ==> r.failure == Usage(PageSizeTooSmall)
    ensures Valid(q) && r.Ok? ==> Valid(r.value)
  {
    if size >= 1 then Ok(q.(pageSize := size)) else Err(Usage(PageSizeTooSmall))
  }

  /** The query parameters of a page request: page number and size, then the
      filter, then the order, later entries overriding earlier ones. */
  function QueryArgs(q: Query, page: int, size: int): (args: map<string, Json>)
    ensures args.Keys == {"page", "page_size"} + q.filter.Keys + q.order.Keys
    ensures forall k :: k in q.order ==> args[k] == q.order[k]
    ensures forall k :: k in q.filter && k !in q.order ==> args[k] == q.filter[k]
    ensures "page" !in q.filter && "page" !in q.order ==> args["page"] == JNum(page as real)
    ensures "page_size" !in q.filter && "page_size" !in q.order ==> args["page_size"] == JNum(size as real)
  {
    map["page_size" := JNum(size as real), "page" := JNum(page as real)] + q.filter + q.order
  }

  /** The GET that lists one page of the collection. */
  function PageRequest(q: Query, page: int, size: int): Request {
    Request(GET, CollectionPath(q.collection.urlName), JObj(QueryArgs(q, page, size)))
  }

  /** The outcome of reading a remote-backed property of a query. */
  datatype Fetched = Fetched(query: Query, value: Result<int>, requests: seq<Request>)

  /** The `count` property: the cached count if there is one, else the
      total count the service reports for a one-object first page, which is
      then cached. A failed request raises and leaves the query unchanged. */
  function Count(q: Query, remoteTotal: Result<int>): (c: Fetched)
    ensures q.countCached.Some? ==> c == Fetched(q, Ok(q.countCached.value), [])
    ensures q.countCached.None? ==> c.requests == [PageRequest(q, 1, 1)] && c.value == remoteTotal
    ensures c.value.Ok? ==> c.query.countCached == Some(c.value.value)
    ensures c.value.Err? ==> c.query == q
    ensures c.query.filter == q.filter && c.query.order == q.order
            && c.query.pageSize == q.pageSize && c.query.collection == q.collection
  {
    if q.countCached.Some? then Fetched(q, Ok(q.countCached.value), [])
    else if remoteTotal.Err? then Fetched(q, remoteTotal, [PageRequest(q, 1, 1)])
    else Fetched(q.(countCached := Some(remoteTotal.value)), remoteTotal, [PageRequest(q, 1, 1)])
  }

  /** Integer ceiling of n / d: the least p with p * d >= n. */
  function CeilDiv(n: int, d: int): (p: int)
    requires d >= 1
    ensures p * d >= n
    ensures (p - 1) * d < n
  {
    var p := (n + d - 1) / d;
    var rem := (n + d - 1) % d;
    assert n + d - 1 == p * d + rem;
    assert (p - 1) * d == p * d - d;
    p
  }

  /** No smaller page count covers the objects. */
  lemma CeilDivIsLeast(n: int, d: int, p: int)
    requires d >= 1 && p * d >= n
    ensures p >= CeilDiv(n, d)
  {
    var c := CeilDiv(n, d);
    var x := p - c + 1;
    assert x * d == p * d - (c - 1) * d;
    PositiveFactor(x, d);
  }

  /** A product with a positive factor is positive only if the other factor is. */
  lemma PositiveFactor(x: int, d: int)
    requires d >= 1 && x * d > 0
    ensures x >= 1
  {
    assert x * d == (x - 1) * d + d;
  }

  /** The `total_pages` property: the number of pages of the current size
      needed for every counted object (reading the count if need be). */
  function TotalPages(q: Query, remoteTotal: Result<int>): (t: Fetched)
    requires q.pageSize >= 1
    ensures var c := Count(q, remoteTotal);
            && t.query == c.query && t.requests == c.requests
            && (t.value.Ok? <==> c.value.Ok?)
            && (t.value.Ok? ==> t.value.value * q.pageSize >= c.value.value
                                && (t.value.value - 1) * q.pageSize < c.value.value)
  {
    var c := Count(q, remoteTotal);
    if c.value.Err? then c
    else c.(value := Ok(CeilDiv(c.value.value, q.pageSize)))
  }

  /** One page as the service returns it: the total count and the items. */
  datatype Page = Page(totalCount: int, items: seq<Json>)

  datatype Paged = Paged(query: Query, objects: Result<seq<RemoteObject>>, request: Request)

  /** `get_page`: fetch one page at the current page size; every item becomes
      an object of the query's collection, and the reported total count is
      cached. */
  function GetPage(q: Query, page: int, reply: Result<Page>): (p: Paged)
    ensures p.request == PageRequest(q, page, q.pageSize)
    ensures reply.Err? ==> p.query == q && p.objects == Err(reply.failure)
    ensures reply.Ok? ==> p.objects.Ok? && |p.objects.value| == |reply.value.items|
    ensures reply.Ok? ==> forall i :: 0 <= i < |p.objects.value| ==>
              p.objects.value[i] == RemoteObject(q.collection, reply.value.items[i])
    ensures reply.Ok? ==> p.query == q.(countCached := Some(reply.value.totalCount))
  {
    if reply.Err? then Paged(q, Err(reply.failure), PageRequest(q, page, q.pageSize))
    else
      Paged(q.(countCached := Some(reply.value.totalCount)),
            Ok(seq(|reply.value.items|, i requires 0 <= i < |reply.value.items| =>
                     RemoteObject(q.collection, reply.value.items[i]))),
            PageRequest(q, page, q.pageSize))
  }

  /** The filter a `make_filter` call with no `None` argument asks for. */
  function FilterOf(filterType: Json, field: Json, value: Json): map<string, Json> {
    map["filter_type" := filterType, "filter_field" := field, "filter_value" := value]
  }

  /** What the `filter` setter does to everything but the filter: order,
      page size and collection are kept; a changed filter drops the cached
      count, and an unchanged one leaves the query exactly as it was. */
  predicate FilterFrame(q: Query, q': Query) {
    && q'.order == q.order && q'.pageSize == q.pageSize && q'.collection == q.collection
    && (q'.filter != q.filter ==> q'.countCached.None?)
    && (q'.filter == q.filter ==> q' == q)
  }

  /** `make_filter`: a `None` anywhere clears the filter; otherwise the filter
      is set to the three given parts through the setter. */
  function MakeFilter(q: Query, filterType: Json, field: Json, value: Json): (r: Result<Query>)
    ensures JNull in [filterType, field, value] ==> r.Ok? && |r.value.filter| == 0
    ensures JNull !in [filterType, field, value] ==>
              (r.Ok? <==> filterType in FilterTypes || q.filter == FilterOf(filterType, field, value))
    ensures JNull !in [filterType, field, value] && r.Ok? ==>
              r.value.filter == FilterOf(filterType, field, value)
    ensures r.Ok? ==> r.value.order == q.order && r.value.pageSize == q.pageSize
                      && r.value.collection == q.collection
    ensures r.Ok? && r.value.filter != q.filter ==> r.value.countCached.None?
    ensures r.Ok? ==> FilterFrame(q, r.value)
    ensures Valid(q) && r.Ok? ==> Valid(r.value)
  {
    if JNull in [filterType, field, value] then SetFilter(q, map[])
    else SetFilter(q, FilterOf(filterType, field, value))
  }

  /** `remove_filter`. */
  function RemoveFilter(q: Query): (r: Result<Query>)
    ensures r.Ok? && |r.value.filter| == 0
    ensures Valid(q) ==> Valid(r.value)
    ensures |q.filter| == 0 ==> r == Ok(q)
    ensures |q.filter| > 0 ==> r.value.countCached.None?
    ensures FilterFrame(q, r.value)
  {
    SetFilter(q, map[])
  }

  /** `filter_field`: exact matches on a field. */
  function FilterField(q: Query, field: Json, value: Json): (r: Result<Query>)
    ensures field != JNull && value != JNull ==>
              r.Ok? && r.value.filter == FilterOf(JStr("field"), field, value)
    ensures field == JNull || value == JNull ==> r.Ok? && |r.value.filter| == 0
    ensures r.Ok? && FilterFrame(q, r.value)
    ensures Valid(q) ==> Valid(r.value)
  {
    MakeFilter(q, JStr("field"), field, value)
  }

  /** `filter_prefix`: prefix matches on a field. */
  function FilterPrefix(q: Query, field: Json, value: Json): (r: Result<Query>)
    ensures field != JNull && value != JNull ==>
              r.Ok? && r.value.filter == FilterOf(JStr("field-prefix"), field, value)
    ensures field == JNull || value == JNull ==> r.Ok? && |r.value.filter| == 0
    ensures r.Ok? && FilterFrame(q, r.value)
    ensures Valid(q) ==> Valid(r.value)
  {
    MakeFilter(q, JStr("field-prefix"), field, value)
  }

  /** `filter_search`: substring matches on a field. */
  function FilterSearch(q: Query, field: Json, value: Json): (r: Result<Query>)
    ensures field != JNull && value != JNull ==>
              r.Ok? && r.value.filter == FilterOf(JStr("field-search"), field, value)
    ensures field == JNull || value == JNull ==> r.Ok? && |r.value.filter| == 0
    ensures r.Ok? && FilterFrame(q, r.value)
    ensures Valid(q) ==> Valid(r.value)
  {
    MakeFilter(q, JStr("field-search"), field, value)
  }

  /** `filter_special`: a named special query. */
  function FilterSpecial(q: Query, field: Json, value: Json): (r: Result<Query>)
    ensures field != JNull && value != JNull ==>
              r.Ok? && r.value.filter == FilterOf(JStr("special"), field, value)
    ensures field == JNull || value == JNull ==> r.Ok? && |r.value.filter| == 0
    ensures r.Ok? && FilterFrame(q, r.value)
    ensures Valid(q) ==> Valid(r.value)
  {
    MakeFilter(q, JStr("special"), field, value)
  }

  /** `search`: the special query 'search' over the given terms. */
  function Search(q: Query, terms: Json): (r: Result<Query>)
    ensures terms != JNull ==>
              r.Ok? && r.value.filter == FilterOf(JStr("special"), JStr("search"), terms)
    ensures terms == JNull ==> r.Ok? && |r.value.filter| == 0
    ensures r.Ok? && FilterFrame(q, r.value)
    ensures Valid(q) ==> Valid(r.value)
  {
    MakeFilter(q, JStr("special"), JStr("search"), terms)
  }

  /** Reading `count` twice asks the service once: the second read is served
      from the cache, whatever the service would now report. */
  lemma CountIsCached(q: Query, first: Result<int>, second: Result<int>)
    requires Count(q, first).value.Ok?
    ensures var c := Count(q, first);
            Count(c.query, second) == Fetched(c.query, c.value, [])
  {
  }

  /** After the filter actually changes, the next `count` asks the service. */
  lemma FilterChangeRefetchesCount(q: Query, value: map<string, Json>, remote: Result<int>)
    requires SetFilter(q, value).Ok? && value != q.filter
    ensures var q' := SetFilter(q, value).value;
            Count(q', remote).requests == [PageRequest(q', 1, 1)]
  {
  }

  /** Setting the filter it already has keeps a cached count. */
  lemma SameFilterKeepsCount(q: Query, remote: Result<int>)
    ensures SetFilter(q, q.filter) == Ok(q)
    ensures q.countCached.Some? ==> Count(SetFilter(q, q.filter).value, remote).requests == []
  {
  }

  /** Changing order or page size never makes `count` ask again. */
  lemma OrderAndSizeKeepCount(q: Query, order: map<string, Json>, size: int, remote: Result<int>)
    requires q.countCached.Some?
    ensures SetOrder(q, order).Ok? ==> Count(SetOrder(q, order).value, remote).requests == []
    ensures SetPageSize(q, size).Ok? ==> Count(SetPageSize(q, size).value, remote).requests == []
  {
  }

  /** 37 matching objects at the default page size fit on one page. */
  lemma ThirtySevenOnOnePage(c: Collection)
    ensures TotalPages(NewQuery(c), Ok(37)).value == Ok(1)
  {
    var t := TotalPages(NewQuery(c), Ok(37)).value.value;
    assert t * 100 >= 37 && (t - 1) * 100 < 37;
  }

}

=== FILE: wrappers.dfy ===
/** An optional value: the model's rendering of a Python value that may be `None`
    where `None` is not itself a JSON datum. */
module Wrappers {

  datatype Option<+T> = None | Some(value: T)

}
